=== FILE: README.md ===
# Green Grocery List Generator: table logic in Dafny

The Green Grocery List Generator is a Streamlit page. It keeps a household
pantry table and a monthly requirement table, and from them it derives a
shopping list. This project takes the table operations out of the page's
widget code and models them as pure functions over sequences of row records:

- `Records`: the row records (`PantryItem`, `Requirement`, `ShoppingEntry`),
  the `Priority` labels, and the pantry column names.
- `StringOrder`: Python's code-point lexicographic order on strings,
  defined and proved to be a total order.
- `Pantry`: add a row, remove by name, update by name, the import column
  gate, and export.
- `Requirements`: the one-way requirement snapshot of the pantry and the
  requirement form's per-row edits.
- `ShoppingList`: Amount Needed, the filter and projection, the insertion
  sort by (Priority, Category) with both keys compared as strings, and the
  derivation built from them.
- `Session`: the session state as an explicit record `{pantry, needs,
  shoppingList}`. One rerun of the page is one step, and Streamlit runs the
  whole script on every rerun. A step takes the file the uploader still
  holds and the form that was submitted. It applies them in the script's
  order:
  1. the add form;
  2. the re-import of the attached file;
  3. the update or remove;
  4. the snapshot, if the pantry is non-empty and no snapshot exists;
  5. the requirement form's values followed by the derivation, when that
     form was submitted with CALCULATE.

Behaviour of the code that the model keeps as written:

- Item names are not unique. Add never checks for duplicates, so remove and
  update act on every row with the selected name.
- Import accepts a table whose header holds the four pantry columns. Other
  columns may also be present.
- Add requires both the item name and the category to be non-empty
  (main.py:191).
- Amounts are unconstrained reals. The edit form's amount field has no
  minimum, and an imported table may hold any number.
- Categories and units are plain strings, because an import never
  validates them.
- Priority is sorted by its label, so "High" < "Low" < "Medium". This is
  not the severity order. It is kept as written and stated as
  `ShoppingList.LabelOrder` and `ShoppingList.DerivePriorityOrder`.
- The snapshot is taken only while the pantry is non-empty
  (main.py:276-283). After that it is never refreshed.
- The file uploader keeps its file between reruns, and every rerun with a
  file attached imports it again. An add in the same rerun is therefore
  overwritten, while an update or remove acts on the re-imported table.
- Streamlit form widgets hand over their values only when their form is
  submitted. Requirement edits therefore reach the requirement table only
  in the rerun that calculates the shopping list.

## Model

| member | source | states |
|---|---|---|
| Pantry.Add | main.py:190-201 | The add succeeds exactly when the name and the category are both non-empty. The new pantry is then the old pantry followed by exactly one new row. Otherwise the result is a missing-field failure. |
| Pantry.AddCountsName | main.py:198 | Add does not check for duplicates: the number of rows with the added name goes up by one. |
| Pantry.Remove | main.py:267 | No row with the selected name remains. The length drops by exactly the number of rows with that name. |
| Pantry.RemoveContents | main.py:267 | Every row without the selected name is kept as often as it occurred. Every row with that name is dropped. |
| Pantry.RemoveAppend | main.py:267 | Removal distributes over concatenation, so the kept rows stay in their original relative order. |
| Pantry.RemoveAbsent | main.py:267 | Removing a name that no row carries leaves the pantry unchanged. |
| Pantry.RemoveIdempotent | main.py:267 | Removing the same name a second time changes nothing. |
| Pantry.RemoveUndoesAdd | main.py:267 | Removing a fresh name right after adding it gives back the original pantry. |
| Pantry.Update | main.py:263 | The length is unchanged. Every row with the selected name becomes the new row. Every other row is identical to before, in the same place. |
| Pantry.UpdateIdempotent | main.py:263 | Applying the same update twice is the same as applying it once. |
| Pantry.UpdateRenames | main.py:263 | After a rename, no row keeps the old name. The count of the new name is the old name's count plus the new name's count. |
| Pantry.RemoveAfterUpdate | main.py:263 | Removing the new name after an update equals removing both names from the original. So the updated rows are exactly the rows that had the selected name. |
| Pantry.Import | main.py:216-225 | The upload becomes the pantry exactly when it was readable and its header holds Item, Category, Current Amount and Unit. Otherwise the result is a failure: an unreadable file gives a read error, and a readable table without those columns gives the missing-columns error. |
| Pantry.ExportImportRoundTrip | main.py:216-229 | The exported header passes the import column gate. With file contents read back as written, the re-imported rows are the exported pantry. |
| Pantry.ImportNeedsUnit | main.py:218-223 | A table without a Unit column is refused. |
| Pantry.ImportToleratesExtraColumns | main.py:219 | A header holding every column of an accepted one, with extra columns anywhere and in any order, is accepted too, and the imported rows are the same. |
| Requirements.Snapshot | main.py:280-283 | The snapshot has one row per pantry row. Each row has Monthly Need 0 and Priority Medium. |
| Requirements.SnapshotKeepsRows | main.py:281 | The snapshot's pantry columns give back the pantry exactly, row for row. |
| Requirements.Edit | main.py:306-308 | The edited row takes the new need, unit and priority. All other rows are unchanged, and the length is unchanged. |
| Requirements.EditKeepsStock | main.py:306-308 | An edit never changes any row's item, category or current amount. |
| Requirements.ApplyEdits | main.py:293-308 | A submission of the requirement form keeps the length and every row's item, category and current amount. A row no edit targets is unchanged. The last edit lands on its row. |
| Requirements.ApplyEditsLands | main.py:293-308 | Every edit of a submission lands on its row unless a later edit in the same submission targets that row again. |
| ShoppingList.AmountNeeded | main.py:312-313 | Amount Needed is never negative. It is positive exactly when the need exceeds the current amount, and then it equals the shortfall. |
| ShoppingList.Candidates | main.py:316-318 | Every kept row needs a positive amount. A shopping row is present exactly when some requirement row with need > current amount projects to it. |
| ShoppingList.CandidatesAppend | main.py:316-317 | Filtering and projecting keep table order: they distribute over concatenation. |
| StringOrder.LessEqTotalOrder | main.py:318 | The string comparison used for both sort keys is reflexive, antisymmetric, transitive and total. |
| ShoppingList.LabelOrder | main.py:318 | Comparing priority labels as strings puts High before Low before Medium. Equal labels mean equal priorities. |
| ShoppingList.KeyLeTotal | main.py:318 | Any two shopping rows are comparable under the (Priority, Category) key. |
| ShoppingList.KeyLeTransitive | main.py:318 | The (Priority, Category) key order is transitive. |
| ShoppingList.Insert | main.py:318 | Inserting adds exactly one occurrence of the row and keeps a sorted list sorted. |
| ShoppingList.Sort | main.py:318 | The output is non-decreasing by (Priority, Category) and is a permutation of the input. |
| ShoppingList.SortKeepsSorted | main.py:318 | Sorting a list that is already in order returns it unchanged. |
| ShoppingList.Derive | main.py:310-318 | The shopping list is sorted by (Priority, Category). It is a permutation of the filtered and projected rows. |
| ShoppingList.DeriveMembership | main.py:312-318 | A row is on the list exactly when some requirement row has need > current amount. That row's item, category, unit and priority are copied, and its Amount Needed is need − current amount. |
| ShoppingList.RowContributes | main.py:312-317 | A requirement row contributes its row exactly when its need is strictly greater than its current amount. |
| ShoppingList.DerivePositive | main.py:313-317 | Every shopping-list amount is strictly positive. |
| ShoppingList.DerivePriorityOrder | main.py:318 | Along the list, High rows come first, then Low rows, then Medium rows. Rows of equal priority are in category order. |
| ShoppingList.DeriveResortable | main.py:318 | Sorting the derived list again changes nothing. |
| ShoppingList.ScenarioApples | main.py:310-318 | With 2 kg of apples in stock and 5 kg needed, the list holds 3 kg of apples at Medium priority. |
| ShoppingList.ScenarioMilk | main.py:310-318 | With 4 L of milk in stock and 2 L needed, the list is empty. |
| ShoppingList.ScenarioHighBeforeLow | main.py:318 | In one category, a High row comes before a Low row, whatever their table order. |
| Session.PantryAfter | main.py:190-268 | With no file attached, an add appends its row exactly when the name and category are filled in, and an update or remove acts on the current pantry. With an accepted file attached, the pantry becomes the file's rows, the update or remove then acts on them, and an add is lost. With no file and no pantry form, the pantry is unchanged. |
| Session.RefusedFileIgnored | main.py:214-225 | A refused or unreadable file leaves the previous pantry in place: the rerun acts exactly as if no file were attached. |
| Session.EnsureSnapshot | main.py:276-283 | If a snapshot exists, or the pantry is empty, nothing changes. Otherwise the new snapshot copies the pantry row for row with need 0 and priority Medium. |
| Session.Step | main.py:190-318 | A rerun's pantry is the result of its pantry phase. An existing snapshot survives with the same length. Only a submission of the requirement form changes the shopping list or an existing requirement table. A rerun that ends with an empty pantry changes neither the requirement table nor the shopping list, so no empty snapshot is ever taken. |
| Session.PantryEventLeavesRest | main.py:190-268 | Once a snapshot exists, a rerun without a requirement-form submission changes neither the requirements nor the shopping list. Such a rerun is a pantry form, an attached file, or nothing at all. |
| Session.ReimportOverridesAdd | main.py:190-225 | With an accepted file attached, an add in the same rerun is lost: the pantry is the file's rows. |
| Session.RemoveActsOnReimport | main.py:214-268 | With an accepted file attached, a remove acts on the re-imported table. Clearing the uploader afterwards keeps that result. |
| Session.SnapshotStaysStale | main.py:280-308 | Over any sequence of reruns after the snapshot, the snapshot stays. Its items, categories and current amounts never change. |
| Session.FirstSnapshot | main.py:276-283 | The first rerun with a non-empty pantry copies the pantry into the requirement table. Each row keeps its item, category, amount and unit, with need 0 and priority Medium. A requirement-form submission in that rerun is applied on top of the copy. |
| Session.CalculateDerives | main.py:306-318 | Submitting the requirement form with a non-empty pantry first writes the form's values. It then replaces the shopping list with the sorted derivation over the edited table. |
| Session.EmptyPantryBlocksShoppingTab | main.py:276-277 | When the pantry phase of a rerun leaves the pantry empty, the rerun changes nothing but the pantry, whatever form was submitted. |

## Left out

- Page configuration, CSS, layout, tabs, forms, expanders and messages (main.py:9-128, 151-186 and 360-365): these are presentation only.
- CSV parsing and writing (`read_csv`, `to_csv`) and the download buttons: these are library I/O. An upload is modelled as `Unreadable` or as a table with a column header and its rows read through the four pantry columns. Values in any extra columns are not carried.
- Date-stamped file names: they depend on the wall clock.
- Floating-point arithmetic and number formatting: amounts are exact reals.
- Grouping by category for display, and the emoji and print-friendly text (main.py:243, 291, 329-354): presentation only.
- The export of the shopping list, which drops the Priority column (main.py:336): this is file output only.
- The exceptions raised when an imported row holds a category or unit that the select boxes do not offer (main.py:254, 258, 299): this is widget failure, not table logic.
- The failure of an update on a pantry that was imported with extra columns: pandas cannot assign four values to a wider row, and the model's rows have exactly the four pantry columns.
- ShoppingList.Sort: the relative order of rows that tie on both (Priority, Category) is not specified. pandas' tie behaviour is a library detail, so only sortedness and permutation are stated.
- Requirements.Edit: needs an in-range row position. The page only edits rows it is iterating over. `Requirements.ApplyEdits` ignores out-of-range positions.
- Pantry.Update: writes the new values by field name. The source assigns its four values by column position (main.py:263). After an import whose header lists the four columns in another order, such as `Category,Item,Current Amount,Unit`, the source stores the values in the wrong fields. In that example the item name lands in Category. The model does not carry the header order, because a typed row cannot hold a name in its amount field.
- Pantry.ExportImportRoundTrip: the value round trip through `to_csv` and `read_csv` is assumed, not proved. pandas reads back the text "NA", "null" and the empty string as NaN, and numeric-looking text such as "007" as a number. The model also exports the four pantry columns in their standard order. The source writes the pantry's own column order, including any extra columns, and offers export only for a non-empty pantry (main.py:228).
- Pantry.Import: uploaded cells are typed, so empty or non-numeric cells cannot be represented. In the source, an empty Current Amount is read as NaN. `max(0, NaN)` at main.py:313 returns 0, so that row silently drops off the shopping list. A text amount makes the subtraction at main.py:312 raise an exception.
- Session.CalculateDerives: the source's requirement form may never let CALCULATE be pressed. main.py:296 gives `number_input` a float `min_value` of 0.0 and a float `step` of 0.5. Its `value` is the integer 0 written at main.py:282. Streamlit refuses numeric arguments of mixed int and float types, so drawing the form's first row plausibly raises before the button is shown. The model treats the form as working, like the other widget exceptions above.

=== FILE: pantry.dfy ===
/**
 The pantry table and the four ways the pantry tab changes it: adding one
 row from the form, removing by name, updating by name, and importing a
 whole table. Item names are not unique, so remove and update act on every
 row with the selected name.
 */
module Pantry {
  import opened Records

  /** Number of rows whose Item is `name`. */
  function CountNamed(pantry: seq<PantryItem>, name: string): nat
  {
    if |pantry| == 0 then 0
    else (if pantry[0].item == name then 1 else 0) + CountNamed(pantry[1..], name)
  }

  /** No row of the pantry is named `name`. */
  predicate NoneNamed(pantry: seq<PantryItem>, name: string)
  {
    forall i :: 0 <= i < |pantry| ==> pantry[i].item != name
  }

  // ---------------------------------------------------------------- add

  datatype AddError = MissingRequiredField

  /** The add form: a row is appended only when both the item name and the
      category are filled in; otherwise a warning is shown and nothing is
      added. Duplicates are not checked. */
  function Add(pantry: seq<PantryItem>, name: string, category: string, amount: real, unit: string)
    : (r: Result<seq<PantryItem>, AddError>)
    ensures r.Success? <==> name != "" && category != ""
    ensures r.Failure? ==> r.error == MissingRequiredField
    ensures r.Success? ==>
              && |r.value| == |pantry| + 1
              && r.value[..|pantry|] == pantry
              && r.value[|pantry|] == PantryItem(name, category, amount, unit)
  {
    if name != "" && category != "" then
      Success(pantry + [PantryItem(name, category, amount, unit)])
    else
      Failure(MissingRequiredField)
  }

  // ------------------------------------------------------------- remove

  /** Keeps the rows whose Item is not `name`, in their original order. */
  function Remove(pantry: seq<PantryItem>, name: string): (r: seq<PantryItem>)
    ensures NoneNamed(r, name)
    ensures |r| == |pantry| - CountNamed(pantry, name)
  {
    if |pantry| == 0 then []
    else
      (if pantry[0].item == name then [] else [pantry[0]]) + Remove(pantry[1..], name)
  }

  /** Removal keeps every row not named `name` as often as it occurred and
      drops every row named `name`. */
  lemma {:induction false} RemoveContents(pantry: seq<PantryItem>, name: string)
    ensures forall x :: multiset(Remove(pantry, name))[x] == if x.item == name then 0 else multiset(pantry)[x]
  {
    if |pantry| > 0 {
      assert pantry == [pantry[0]] + pantry[1..];
      RemoveContents(pantry[1..], name);
    }
  }

  /** Removal distributes over concatenation: together with its effect on a
      single row this fixes the order of the result. */
  lemma {:induction false} RemoveAppend(p: seq<PantryItem>, q: seq<PantryItem>, name: string)
    ensures Remove(p + q, name) == Remove(p, name) + Remove(q, name)
  {
    if |p| == 0 {
      assert p + q == q;
    } else {
      var head := if p[0].item == name then [] else [p[0]];
      assert (p + q)[0] == p[0] && (p + q)[1..] == p[1..] + q;
      assert Remove(p + q, name) == head + Remove(p[1..] + q, name);
      assert Remove(p, name) == head + Remove(p[1..], name);
      RemoveAppend(p[1..], q, name);
    }
  }

  /** A pantry with no row of that name is left as it is. */
  lemma {:induction false} RemoveAbsent(pantry: seq<PantryItem>, name: string)
    requires NoneNamed(pantry, name)
    ensures Remove(pantry, name) == pantry
  {
    if |pantry| > 0 {
      RemoveAbsent(pantry[1..], name);
    }
  }

  /** Removing the same name twice removes nothing more. */
  lemma RemoveIdempotent(pantry: seq<PantryItem>, name: string)
    ensures Remove(Remove(pantry, name), name) == Remove(pantry, name)
  {
    RemoveAbsent(Remove(pantry, name), name);
  }

  /** Removing a freshly added name takes the pantry back to what it was,
      provided no row had that name before. */
  lemma RemoveUndoesAdd(pantry: seq<PantryItem>, name: string, category: string, amount: real, unit: string)
    requires NoneNamed(pantry, name)
    requires Add(pantry, name, category, amount, unit).Success?
    ensures Remove(Add(pantry, name, category, amount, unit).value, name) == pantry
  {
    var row := PantryItem(name, category, amount, unit);
    RemoveAppend(pantry, [row], name);
    RemoveAbsent(pantry, name);
  }

  /** Adding a name already present makes it appear once more: names are
      not unique. */
  lemma {:induction false} AddCountsName(pantry: seq<PantryItem>, name: string, category: string, amount: real, unit: string)
    requires Add(pantry, name, category, amount, unit).Success?
    ensures CountNamed(Add(pantry, name, category, amount, unit).value, name) == CountNamed(pantry, name) + 1
  {
    CountAppend(pantry, [PantryItem(name, category, amount, unit)], name);
  }

  lemma {:induction false} CountAppend(p: seq<PantryItem>, q: seq<PantryItem>, name: string)
    ensures CountNamed(p + q, name) == CountNamed(p, name) + CountNamed(q, name)
  {
    if |p| == 0 {
      assert p + q == q;
    } else {
      assert (p + q)[1..] == p[1..] + q;
      CountAppend(p[1..], q, name);
    }
  }

  // ------------------------------------------------------------- update

  /** Overwrites every row whose Item is `name` with `row`; all other rows
      stay as they are, in place. */
  function Update(pantry: seq<PantryItem>, name: string, row: PantryItem): (r: seq<PantryItem>)
    ensures |r| == |pantry|
    ensures forall i :: 0 <= i < |r| ==> r[i] == if pantry[i].item == name then row else pantry[i]
  {
    if |pantry| == 0 then []
    else [if pantry[0].item == name then row else pantry[0]] + Update(pantry[1..], name, row)
  }

  /** Applying the same update twice changes nothing more. */
  lemma UpdateIdempotent(pantry: seq<PantryItem>, name: string, row: PantryItem)
    ensures Update(Update(pantry, name, row), name, row) == Update(pantry, name, row)
  {
  }

  /** Renaming through an update leaves no row with the old name, and the
      new name then counts the rows renamed plus those that had it. */
  lemma {:induction false} UpdateRenames(pantry: seq<PantryItem>, name: string, row: PantryItem)
    requires row.item != name
    ensures NoneNamed(Update(pantry, name, row), name)
    ensures CountNamed(Update(pantry, name, row), row.item)
            == CountNamed(pantry, name) + CountNamed(pantry, row.item)
  {
    if |pantry| > 0 {
      UpdateRenames(pantry[1..], name, row);
      assert Update(pantry, name, row)[1..] == Update(pantry[1..], name, row);
    }
  }

  /** Update then remove under the new name equals removing both names:
      the updated rows are exactly the rows that had the old name. */
  lemma {:induction false} RemoveAfterUpdate(pantry: seq<PantryItem>, name: string, row: PantryItem)
    ensures Remove(Update(pantry, name, row), row.item) == Remove(Remove(pantry, name), row.item)
  {
    if |pantry| > 0 {
      var u := Update(pantry, name, row);
      var head := if pantry[0].item == name then [] else [pantry[0]];
      assert u[1..] == Update(pantry[1..], name, row);
      assert Remove(pantry, name) == head + Remove(pantry[1..], name);
      RemoveAppend(head, Remove(pantry[1..], name), row.item);
      RemoveAfterUpdate(pantry[1..], name, row);
    }
  }

  // ------------------------------------------------------------- import

  /** What the CSV reader delivers: either a failure to read the file, or a
      table with its column header and its rows seen through the four pantry
      columns (the values of any further columns are not modelled). */
  datatype Upload = Unreadable | Table(columns: seq<string>, rows: seq<PantryItem>)

  datatype ImportError = ReadError | MissingColumns

  /** The import gate: the uploaded table becomes the pantry only when its
      header holds all four pantry columns; further columns are allowed. */
  function Import(upload: Upload): (r: Result<seq<PantryItem>, ImportError>)
    ensures r.Success? <==> upload.Table? && forall c :: c in PantryColumns ==> c in upload.columns
    ensures r.Success? ==> r.value == upload.rows
    ensures upload.Unreadable? ==> r == Failure(ReadError)
    ensures upload.Table? && r.Failure? ==> r.error == MissingColumns
  {
    match upload
    case Unreadable => Failure(ReadError)
    case Table(columns, rows) =>
      if "Item" in columns && "Category" in columns && "Current Amount" in columns && "Unit" in columns
      then Success(rows)
      else Failure(MissingColumns)
  }

  /** Export writes the four pantry columns and every row in table order. */
  function Export(pantry: seq<PantryItem>): (r: Upload)
    ensures r.Table? && r.columns == PantryColumns && r.rows == pantry
  {
    Table(PantryColumns, pantry)
  }

  /** Exporting the pantry and importing the file gives the same pantry. */
  lemma ExportImportRoundTrip(pantry: seq<PantryItem>)
    ensures Import(Export(pantry)) == Success(pantry)
  {
  }

  /** A table without a Unit column is refused. */
  lemma ImportNeedsUnit(columns: seq<string>, rows: seq<PantryItem>)
    requires "Unit" !in columns
    ensures Import(Table(columns, rows)) == Failure(MissingColumns)
  {
  }

  /** Extra columns, in any position, and a different column order never turn
      an accepted table into a refused one. */
  lemma ImportToleratesExtraColumns(columns: seq<string>, wider: seq<string>, rows: seq<PantryItem>)
    requires Import(Table(columns, rows)).Success?
    requires forall c :: c in columns ==> c in wider
    ensures Import(Table(wider, rows)) == Import(Table(columns, rows))
  {
  }
}

=== FILE: records.dfy ===
/**
 The three tables of the grocery-list application, each row as an explicit
 record instead of a free-form data-frame row:
 - the pantry (columns Item, Category, Current Amount, Unit),
 - the monthly requirements, a snapshot of the pantry with the added columns
   Monthly Need and Priority,
 - the shopping list (Item, Category, Amount Needed, Unit, Priority).
 Amounts are exact reals; the application's floating point is not modelled.
 */
module Records {

  /** The column header a pantry table must carry to be imported. */
  const PantryColumns: seq<string> := ["Item", "Category", "Current Amount", "Unit"]

  /** One row of the pantry table. Item names are not keys: nothing stops
      two rows from carrying the same name. */
  datatype PantryItem = PantryItem(item: string, category: string, amount: real, unit: string)

  /** The three priorities a requirement can be given. */
  datatype Priority = High | Medium | Low {
    /** The text stored in the Priority column; sorting compares this text. */
    function Label(): string {
      match this
      case High => "High"
      case Medium => "Medium"
      case Low => "Low"
    }
  }

  /** One row of the requirement table: the pantry columns as they were
      when the snapshot was taken (except the unit, which may be edited),
      plus the monthly need and the priority. */
  datatype Requirement = Requirement(
    item: string, category: string, amount: real, unit: string,
    need: real, priority: Priority)

  /** One row of the shopping list. */
  datatype ShoppingEntry = ShoppingEntry(
    item: string, category: string, needed: real, unit: string, priority: Priority)

  /** A value that may be absent. */
  datatype Option<+T> = None | Some(value: T)

  /** Success or failure of an operation that may be refused. */
  datatype Result<+T, +E> = Success(value: T) | Failure(error: E)
}

=== FILE: requirements.dfy ===
/**
 The monthly requirement table: a one-way copy of the pantry, taken on the
 first rerun of the page that sees a non-empty pantry (both tabs' code runs
 on every rerun), then edited row by row (monthly need, unit and priority)
 when the requirement form is submitted. Later pantry changes never reach
 it.
 */
module Requirements {
  import opened Records

  /** The part of a requirement row that comes from the pantry and that no
      edit of the requirement form can change. */
  datatype Stock = Stock(item: string, category: string, amount: real)

  function StockOf(r: Requirement): Stock
  {
    Stock(r.item, r.category, r.amount)
  }

  /** The stock columns of a whole requirement table. */
  function Stocks(needs: seq<Requirement>): (r: seq<Stock>)
    ensures |r| == |needs|
    ensures forall i :: 0 <= i < |needs| ==> r[i] == StockOf(needs[i])
  {
    seq(|needs|, i requires 0 <= i < |needs| => StockOf(needs[i]))
  }

  /** The pantry row a requirement row was copied from, with its current unit. */
  function Base(r: Requirement): PantryItem
  {
    PantryItem(r.item, r.category, r.amount, r.unit)
  }

  /** The pantry columns of a whole requirement table. */
  function Bases(needs: seq<Requirement>): (r: seq<PantryItem>)
    ensures |r| == |needs|
    ensures forall i :: 0 <= i < |needs| ==> r[i] == Base(needs[i])
  {
    if |needs| == 0 then [] else [Base(needs[0])] + Bases(needs[1..])
  }

  /** The snapshot: every pantry row, in order, with Monthly Need 0 and
      Priority Medium. */
  function Snapshot(pantry: seq<PantryItem>): (r: seq<Requirement>)
    ensures |r| == |pantry|
    ensures forall i :: 0 <= i < |r| ==> r[i].need == 0.0 && r[i].priority == Medium
  {
    if |pantry| == 0 then []
    else
      var p := pantry[0];
      [Requirement(p.item, p.category, p.amount, p.unit, 0.0, Medium)] + Snapshot(pantry[1..])
  }

  /** The snapshot keeps the pantry's rows: reading back its pantry columns
      gives exactly the pantry. */
  lemma {:induction false} SnapshotKeepsRows(pantry: seq<PantryItem>)
    ensures Bases(Snapshot(pantry)) == pantry
  {
    if |pantry| > 0 {
      SnapshotKeepsRows(pantry[1..]);
      assert Snapshot(pantry)[1..] == Snapshot(pantry[1..]);
    }
  }

  /** One row of the requirement form: the monthly need, unit and priority
      typed for row `i` are written into it. */
  function Edit(needs: seq<Requirement>, i: nat, need: real, unit: string, priority: Priority)
    : (r: seq<Requirement>)
    requires i < |needs|
    ensures |r| == |needs|
    ensures r[i].need == need && r[i].unit == unit && r[i].priority == priority
    ensures forall j :: 0 <= j < |needs| && j != i ==> r[j] == needs[j]
  {
    needs[i := needs[i].(need := need, unit := unit, priority := priority)]
  }

  /** An edit never changes the item, category or current amount of any
      row, so the snapshot stays as stale as it was. */
  lemma EditKeepsStock(needs: seq<Requirement>, i: nat, need: real, unit: string, priority: Priority)
    requires i < |needs|
    ensures Stocks(Edit(needs, i, need, unit, priority)) == Stocks(needs)
  {
  }

  /** The values the requirement form holds for one row when it is submitted. */
  datatype RowEdit = RowEdit(index: nat, need: real, unit: string, priority: Priority)

  /** A submission of the requirement form: every row's values are written in
      turn; a position outside the table is ignored. */
  function ApplyEdits(needs: seq<Requirement>, edits: seq<RowEdit>): (r: seq<Requirement>)
    ensures |r| == |needs|
    ensures Stocks(r) == Stocks(needs)
    ensures forall i :: 0 <= i < |needs| && (forall k :: 0 <= k < |edits| ==> edits[k].index != i) ==> r[i] == needs[i]
    ensures |edits| > 0 && edits[|edits| - 1].index < |needs| ==>
              var e := edits[|edits| - 1];
              r[e.index].need == e.need && r[e.index].unit == e.unit && r[e.index].priority == e.priority
    decreases |edits|
  {
    if |edits| == 0 then needs
    else
      var e := edits[|edits| - 1];
      var before := ApplyEdits(needs, edits[..|edits| - 1]);
      assert forall k :: 0 <= k < |edits| - 1 ==> edits[..|edits| - 1][k] == edits[k];
      if e.index < |before| then
        EditKeepsStock(before, e.index, e.need, e.unit, e.priority);
        Edit(before, e.index, e.need, e.unit, e.priority)
      else before
  }

  /** Every edit of a submission lands on its row unless a later edit of the
      same submission targets that row again: the form writes every row's
      values, not only the last one. */
  lemma {:induction false} ApplyEditsLands(needs: seq<Requirement>, edits: seq<RowEdit>, k: nat)
    requires k < |edits| && edits[k].index < |needs|
    requires forall m :: k < m < |edits| ==> edits[m].index != edits[k].index
    ensures ApplyEdits(needs, edits)[edits[k].index].need == edits[k].need
    ensures ApplyEdits(needs, edits)[edits[k].index].unit == edits[k].unit
    ensures ApplyEdits(needs, edits)[edits[k].index].priority == edits[k].priority
    decreases |edits|
  {
    if k < |edits| - 1 {
      var init := edits[..|edits| - 1];
      assert init[k] == edits[k];
      assert forall m :: k < m < |init| ==> init[m] == edits[m];
      ApplyEditsLands(needs, init, k);
    }
  }
}

=== FILE: session.dfy ===
/**
 The application's session state as an explicit record, and one rerun of
 the page as a step over it. Streamlit runs the whole script on every
 rerun, top to bottom, so one rerun does, in this order:
 1. the add form, when it was submitted (main.py:190-201);
 2. the import of the file held by the uploader, whenever one is attached,
    whatever else triggered the rerun (main.py:214-225);
 3. the update or remove of the edit form, when one was submitted
    (main.py:262-268);
 4. the requirement snapshot, when the pantry is non-empty and no snapshot
    exists yet (main.py:276-283);
 5. when the requirement form was submitted with CALCULATE, the values it
    holds for every row (main.py:306-308) and then the derivation
    (main.py:310-318). Form widgets only hand over their values when the
    form is submitted, so requirement edits only ever arrive together with
    a calculation.
 */
module Session {
  import opened Records
  import Pantry
  import Requirements
  import ShoppingList

  datatype AppState = AppState(
    pantry: seq<PantryItem>,
    needs: Option<seq<Requirement>>,
    shoppingList: seq<ShoppingEntry>)

  /** The form the user submitted to cause the rerun, if any. */
  datatype Action =
    | AddItem(name: string, category: string, amount: real, unit: string)
    | UpdateItem(selected: string, row: PantryItem)
    | RemoveItem(selected: string)
    | SubmitNeeds(edits: seq<Requirements.RowEdit>)
    | Nothing

  /** One rerun: the file the uploader still holds, and the submitted form. */
  datatype Rerun = Rerun(attached: Option<Pantry.Upload>, action: Action)

  /** The pantry after the add form: a refused add leaves it unchanged. */
  function AfterAdd(pantry: seq<PantryItem>, a: Action): seq<PantryItem>
  {
    match a
    case AddItem(name, category, amount, unit) =>
      (match Pantry.Add(pantry, name, category, amount, unit)
       case Success(p) => p
       case Failure(_) => pantry)
    case _ => pantry
  }

  /** The pantry after the uploader: a refused or unreadable file leaves it
      unchanged. */
  function AfterImport(pantry: seq<PantryItem>, attached: Option<Pantry.Upload>): (r: seq<PantryItem>)
    ensures attached.Some? && Pantry.Import(attached.value).Failure? ==> r == pantry
    ensures attached.Some? && Pantry.Import(attached.value).Success? ==> r == attached.value.rows
  {
    match attached
    case None => pantry
    case Some(u) =>
      (match Pantry.Import(u)
       case Success(p) => p
       case Failure(_) => pantry)
  }

  /** The pantry after the pantry tab of one rerun: add, then re-import, then
      update or remove. */
  function PantryAfter(pantry: seq<PantryItem>, rr: Rerun): (r: seq<PantryItem>)
    ensures rr.attached.None? && rr.action.AddItem? ==>
              r == (if rr.action.name != "" && rr.action.category != ""
                    then pantry + [PantryItem(rr.action.name, rr.action.category, rr.action.amount, rr.action.unit)]
                    else pantry)
    ensures rr.attached.Some? && rr.attached.value.Table? &&
            (forall c :: c in PantryColumns ==> c in rr.attached.value.columns) ==>
              var rows := rr.attached.value.rows;
              r == (match rr.action
                    case UpdateItem(selected, row) => Pantry.Update(rows, selected, row)
                    case RemoveItem(selected) => Pantry.Remove(rows, selected)
                    case _ => rows)
    ensures rr.attached.None? && (rr.action.SubmitNeeds? || rr.action.Nothing?) ==> r == pantry
    ensures rr.attached.None? && rr.action.UpdateItem? ==>
              r == Pantry.Update(pantry, rr.action.selected, rr.action.row)
    ensures rr.attached.None? && rr.action.RemoveItem? ==>
              r == Pantry.Remove(pantry, rr.action.selected)
  {
    var p := AfterImport(AfterAdd(pantry, rr.action), rr.attached);
    match rr.action
    case UpdateItem(selected, row) => Pantry.Update(p, selected, row)
    case RemoveItem(selected) => Pantry.Remove(p, selected)
    case _ => p
  }

  /** A refused or unreadable file changes nothing: the rerun acts as if no
      file were attached, so the previous pantry is kept. */
  lemma RefusedFileIgnored(pantry: seq<PantryItem>, u: Pantry.Upload, a: Action)
    requires Pantry.Import(u).Failure?
    ensures PantryAfter(pantry, Rerun(Some(u), a)) == PantryAfter(pantry, Rerun(None, a))
    ensures a.Nothing? ==> PantryAfter(pantry, Rerun(Some(u), a)) == pantry
  {
  }

  /** The snapshot is taken once: only when the pantry is not empty and no
      snapshot exists yet. An existing snapshot is never refreshed. */
  function EnsureSnapshot(s: AppState): (r: AppState)
    ensures r.pantry == s.pantry && r.shoppingList == s.shoppingList
    ensures s.needs.Some? || |s.pantry| == 0 ==> r.needs == s.needs
    ensures s.needs.None? && |s.pantry| > 0 ==>
              && r.needs.Some?
              && Requirements.Bases(r.needs.value) == s.pantry
              && forall i :: 0 <= i < |r.needs.value| ==>
                   r.needs.value[i].need == 0.0 && r.needs.value[i].priority == Medium
  {
    if |s.pantry| > 0 && s.needs.None? then
      Requirements.SnapshotKeepsRows(s.pantry);
      s.(needs := Some(Requirements.Snapshot(s.pantry)))
    else s
  }

  /** One rerun of the page. */
  function Step(s: AppState, rr: Rerun): (r: AppState)
    ensures r.pantry == PantryAfter(s.pantry, rr)
    ensures s.needs.Some? ==> r.needs.Some? && |r.needs.value| == |s.needs.value|
    ensures !rr.action.SubmitNeeds? ==> r.shoppingList == s.shoppingList
    ensures !rr.action.SubmitNeeds? && s.needs.Some? ==> r.needs == s.needs
    ensures |r.pantry| == 0 ==> r.needs == s.needs && r.shoppingList == s.shoppingList
  {
    var s1 := EnsureSnapshot(s.(pantry := PantryAfter(s.pantry, rr)));
    if |s1.pantry| == 0 || s1.needs.None? then s1
    else
      match rr.action
      case SubmitNeeds(edits) =>
        var needs := Requirements.ApplyEdits(s1.needs.value, edits);
        s1.(needs := Some(needs), shoppingList := ShoppingList.Derive(needs))
      case _ => s1
  }

  /** A sequence of reruns. */
  function Run(s: AppState, rs: seq<Rerun>): AppState
    decreases |rs|
  {
    if |rs| == 0 then s else Run(Step(s, rs[0]), rs[1..])
  }

  /** A rerun without a submission of the requirement form (a pantry form,
      an attached file, or nothing at all) never touches the shopping list,
      and once a snapshot exists it never touches the requirements either. */
  lemma PantryEventLeavesRest(s: AppState, rr: Rerun)
    requires !rr.action.SubmitNeeds?
    requires s.needs.Some?
    ensures Step(s, rr).needs == s.needs
    ensures Step(s, rr).shoppingList == s.shoppingList
  {
  }

  /** With an accepted file attached, an add in the same rerun is lost: the
      re-import replaces the pantry right after the row was appended. */
  lemma ReimportOverridesAdd(s: AppState, u: Pantry.Upload, name: string, category: string, amount: real, unit: string)
    requires Pantry.Import(u).Success?
    ensures Step(s, Rerun(Some(u), AddItem(name, category, amount, unit))).pantry == u.rows
  {
  }

  /** With an accepted file attached, a remove acts on the re-imported table,
      and clearing the uploader afterwards keeps the result. */
  lemma RemoveActsOnReimport(s: AppState, u: Pantry.Upload, name: string)
    requires Pantry.Import(u).Success?
    ensures Run(s, [Rerun(Some(u), RemoveItem(name)), Rerun(None, Nothing)]).pantry
            == Pantry.Remove(u.rows, name)
  {
    var t := Step(s, Rerun(Some(u), RemoveItem(name)));
    assert Run(t, [Rerun(None, Nothing)]) == Step(t, Rerun(None, Nothing));
  }

  /** Once taken, the snapshot stays, and its items, categories and current
      amounts never change again, whatever happens to the pantry. */
  lemma {:induction false} SnapshotStaysStale(s: AppState, rs: seq<Rerun>)
    requires s.needs.Some?
    ensures Run(s, rs).needs.Some?
    ensures Requirements.Stocks(Run(s, rs).needs.value) == Requirements.Stocks(s.needs.value)
    decreases |rs|
  {
    if |rs| > 0 {
      var t := Step(s, rs[0]);
      assert Requirements.Stocks(t.needs.value) == Requirements.Stocks(s.needs.value);
      SnapshotStaysStale(t, rs[1..]);
    }
  }

  /** The first rerun that sees a non-empty pantry copies it into the
      requirement table, row for row. */
  lemma FirstSnapshot(s: AppState, rr: Rerun)
    requires s.needs.None?
    requires |PantryAfter(s.pantry, rr)| > 0
    ensures Step(s, rr).needs.Some?
    ensures Requirements.Stocks(Step(s, rr).needs.value)
            == Requirements.Stocks(Requirements.Snapshot(PantryAfter(s.pantry, rr)))
    ensures !rr.action.SubmitNeeds? ==>
              Step(s, rr).needs == Some(Requirements.Snapshot(PantryAfter(s.pantry, rr)))
    ensures rr.action.SubmitNeeds? ==>
              Step(s, rr).needs == Some(Requirements.ApplyEdits(Requirements.Snapshot(PantryAfter(s.pantry, rr)), rr.action.edits))
  {
  }

  /** Submitting the requirement form with a non-empty pantry writes the
      form's values and replaces the shopping list with the derivation over
      the edited requirement table. */
  lemma CalculateDerives(s: AppState, rr: Rerun)
    requires rr.action.SubmitNeeds?
    requires |PantryAfter(s.pantry, rr)| > 0
    requires s.needs.Some?
    ensures Step(s, rr).needs == Some(Requirements.ApplyEdits(s.needs.value, rr.action.edits))
    ensures Step(s, rr).shoppingList == ShoppingList.Derive(Step(s, rr).needs.value)
    ensures ShoppingList.Sorted(Step(s, rr).shoppingList)
  {
  }

  /** A rerun whose pantry phase leaves the pantry empty shows only a warning
      on the requirement tab: no snapshot is taken and neither the requirement
      table nor the shopping list changes, whatever form was submitted. */
  lemma EmptyPantryBlocksShoppingTab(s: AppState, rr: Rerun)
    requires |PantryAfter(s.pantry, rr)| == 0
    ensures Step(s, rr) == s.(pantry := PantryAfter(s.pantry, rr))
  {
  }
}

=== FILE: shopping_list.dfy ===
/**
 Derivation of the shopping list from the requirement table: the amount
 still needed per row, the rows that need buying, their projection to the
 shopping-list columns, and the sort by (Priority, Category) where both keys
 are compared as strings. Sorting the priority by its label puts "High"
 before "Low" before "Medium". Rows that tie on both keys may come out in
 any order.
 */
module ShoppingList {
  import opened Records
  import StringOrder

  /** Amount Needed = max(0, Monthly Need - Current Amount). */
  function AmountNeeded(r: Requirement): (a: real)
    ensures a >= 0.0
    ensures a > 0.0 <==> r.need > r.amount
    ensures a > 0.0 ==> a == r.need - r.amount
  {
    if r.need - r.amount > 0.0 then r.need - r.amount else 0.0
  }

  /** The shopping-list row a requirement row would give. */
  function ToEntry(r: Requirement): ShoppingEntry
  {
    ShoppingEntry(r.item, r.category, AmountNeeded(r), r.unit, r.priority)
  }

  /** The rows with a positive Amount Needed, projected to the shopping-list
      columns, in table order (before sorting). */
  function Candidates(reqs: seq<Requirement>): (r: seq<ShoppingEntry>)
    ensures |r| <= |reqs|
    ensures forall j :: 0 <= j < |r| ==> r[j].needed > 0.0
    ensures forall e :: e in r <==> exists i :: 0 <= i < |reqs| && reqs[i].need > reqs[i].amount && e == ToEntry(reqs[i])
  {
    if |reqs| == 0 then []
    else
      assert forall i :: 1 <= i < |reqs| ==> reqs[i] == reqs[1..][i - 1];
      (if AmountNeeded(reqs[0]) > 0.0 then [ToEntry(reqs[0])] else []) + Candidates(reqs[1..])
  }

  /** Filtering and projecting keeps table order: it distributes over
      concatenation. */
  lemma {:induction false} CandidatesAppend(a: seq<Requirement>, b: seq<Requirement>)
    ensures Candidates(a + b) == Candidates(a) + Candidates(b)
  {
    if |a| == 0 {
      assert a + b == b;
    } else {
      assert (a + b)[1..] == a[1..] + b;
      CandidatesAppend(a[1..], b);
    }
  }

  // ------------------------------------------------------------ the sort key

  /** Position of a priority label in string order: "High" < "Low" < "Medium". */
  function LabelRank(p: Priority): nat
  {
    match p
    case High => 0
    case Low => 1
    case Medium => 2
  }

  /** Comparing priorities as strings is comparing their label ranks, which
      is not the severity order High, Medium, Low. */
  lemma LabelOrder(p: Priority, q: Priority)
    ensures StringOrder.Less(p.Label(), q.Label()) <==> LabelRank(p) < LabelRank(q)
    ensures p.Label() == q.Label() <==> p == q
  {
    assert StringOrder.Less("High", "Low") && StringOrder.Less("Low", "Medium");
    assert StringOrder.Less("High", "Medium");
    assert !StringOrder.Less("Low", "High") && !StringOrder.Less("Medium", "Low");
    assert !StringOrder.Less("Medium", "High");
    StringOrder.LessIrreflexive(p.Label());
  }

  /** `x` may precede `y`: by priority label, then by category, both as strings. */
  predicate KeyLe(x: ShoppingEntry, y: ShoppingEntry)
  {
    || StringOrder.Less(x.priority.Label(), y.priority.Label())
    || (x.priority.Label() == y.priority.Label() && StringOrder.LessEq(x.category, y.category))
  }

  lemma KeyLeTotal(x: ShoppingEntry, y: ShoppingEntry)
    ensures KeyLe(x, y) || KeyLe(y, x)
  {
    StringOrder.LessEqTotalOrder(x.category, y.category, x.category);
    if x.priority.Label() != y.priority.Label() {
      StringOrder.LessConnected(x.priority.Label(), y.priority.Label());
    }
  }

  lemma KeyLeTransitive(x: ShoppingEntry, y: ShoppingEntry, z: ShoppingEntry)
    requires KeyLe(x, y) && KeyLe(y, z)
    ensures KeyLe(x, z)
  {
    var a, b, c := x.priority.Label(), y.priority.Label(), z.priority.Label();
    StringOrder.LessEqTotalOrder(a, b, c);
    StringOrder.LessEqTotalOrder(x.category, y.category, z.category);
    if StringOrder.Less(a, b) && StringOrder.Less(b, c) {
      StringOrder.LessTransitive(a, b, c);
    }
  }

  /** Non-decreasing by (Priority, Category). */
  predicate Sorted(s: seq<ShoppingEntry>)
  {
    forall i, j :: 0 <= i < j < |s| ==> KeyLe(s[i], s[j])
  }

  // ------------------------------------------------------- insertion sort

  /** A row that may precede every row of a sorted list may head it. */
  lemma ConsSorted(h: ShoppingEntry, s: seq<ShoppingEntry>)
    requires Sorted(s)
    requires forall j :: 0 <= j < |s| ==> KeyLe(h, s[j])
    ensures Sorted([h] + s)
  {
  }

  /** A lower bound of every row of `s` and of `x` bounds every row of any
      rearrangement of `s` with `x` added. */
  lemma LowerBound(h: ShoppingEntry, s: seq<ShoppingEntry>, x: ShoppingEntry, t: seq<ShoppingEntry>)
    requires forall j :: 0 <= j < |s| ==> KeyLe(h, s[j])
    requires KeyLe(h, x)
    requires multiset(t) == multiset(s) + multiset{x}
    ensures forall j :: 0 <= j < |t| ==> KeyLe(h, t[j])
  {
    forall j | 0 <= j < |t|
      ensures KeyLe(h, t[j])
    {
      assert t[j] in multiset(t);
      if t[j] != x {
        assert t[j] in multiset(s);
        var k :| 0 <= k < |s| && s[k] == t[j];
      }
    }
  }

  /** Inserts `x` before the first row it may precede. */
  function Insert(x: ShoppingEntry, s: seq<ShoppingEntry>): (r: seq<ShoppingEntry>)
    ensures multiset(r) == multiset(s) + multiset{x}
    ensures Sorted(s) ==> Sorted(r)
  {
    if |s| == 0 then [x]
    else if KeyLe(x, s[0]) then
      assert Sorted(s) ==> Sorted([x] + s) by {
        if Sorted(s) {
          forall j | 0 <= j < |s|
            ensures KeyLe(x, s[j])
          {
            if j > 0 {
              KeyLeTransitive(x, s[0], s[j]);
            }
          }
          ConsSorted(x, s);
        }
      }
      [x] + s
    else
      assert s == [s[0]] + s[1..];
      var rest := Insert(x, s[1..]);
      assert Sorted(s) ==> Sorted([s[0]] + rest) by {
        if Sorted(s) {
          KeyLeTotal(x, s[0]);
          LowerBound(s[0], s[1..], x, rest);
          ConsSorted(s[0], rest);
        }
      }
      [s[0]] + rest
  }

  /** Sorts by (Priority, Category). */
  function Sort(s: seq<ShoppingEntry>): (r: seq<ShoppingEntry>)
    ensures Sorted(r)
    ensures multiset(r) == multiset(s)
  {
    if |s| == 0 then []
    else
      assert s == [s[0]] + s[1..];
      Insert(s[0], Sort(s[1..]))
  }

  /** Sorting a list that is already in order leaves it as it is, so
      sorting twice is sorting once. */
  lemma {:induction false} SortKeepsSorted(s: seq<ShoppingEntry>)
    requires Sorted(s)
    ensures Sort(s) == s
  {
    if |s| > 0 {
      assert Sorted(s[1..]);
      SortKeepsSorted(s[1..]);
      if |s| > 1 {
        assert KeyLe(s[0], s[1..][0]);
      }
    }
  }

  // ----------------------------------------------------------- derivation

  /** The shopping list computed by the CALCULATE button. */
  function Derive(reqs: seq<Requirement>): (r: seq<ShoppingEntry>)
    ensures Sorted(r)
    ensures multiset(r) == multiset(Candidates(reqs))
  {
    Sort(Candidates(reqs))
  }

  /** A row is on the shopping list exactly when some requirement row needs
      more than is in stock, and then it carries that row's item, category,
      unit and priority and the shortfall as its amount. */
  lemma DeriveMembership(reqs: seq<Requirement>, e: ShoppingEntry)
    ensures e in Derive(reqs) <==>
              exists i :: 0 <= i < |reqs| && reqs[i].need > reqs[i].amount &&
                e == ShoppingEntry(reqs[i].item, reqs[i].category, reqs[i].need - reqs[i].amount,
                                   reqs[i].unit, reqs[i].priority)
  {
    assert e in Derive(reqs) <==> e in multiset(Derive(reqs));
    assert e in Candidates(reqs) <==> e in multiset(Candidates(reqs));
    if exists i :: 0 <= i < |reqs| && reqs[i].need > reqs[i].amount &&
         e == ShoppingEntry(reqs[i].item, reqs[i].category, reqs[i].need - reqs[i].amount,
                            reqs[i].unit, reqs[i].priority) {
      var i :| 0 <= i < |reqs| && reqs[i].need > reqs[i].amount &&
         e == ShoppingEntry(reqs[i].item, reqs[i].category, reqs[i].need - reqs[i].amount,
                            reqs[i].unit, reqs[i].priority);
      assert e == ToEntry(reqs[i]);
    }
  }

  /** Requirement row `i` contributes to the shopping list if and only if
      its monthly need is strictly greater than its current amount. */
  lemma RowContributes(reqs: seq<Requirement>, i: nat)
    requires i < |reqs|
    ensures ToEntry(reqs[i]) in Derive(reqs) <==> reqs[i].need > reqs[i].amount
  {
    var e := ToEntry(reqs[i]);
    assert e in Derive(reqs) <==> e in multiset(Derive(reqs));
    assert e in Candidates(reqs) <==> e in multiset(Candidates(reqs));
  }

  /** Every shopping-list row needs a strictly positive amount. */
  lemma DerivePositive(reqs: seq<Requirement>)
    ensures forall j :: 0 <= j < |Derive(reqs)| ==> Derive(reqs)[j].needed > 0.0
  {
    var r := Derive(reqs);
    forall j | 0 <= j < |r|
      ensures r[j].needed > 0.0
    {
      assert r[j] in multiset(r);
      assert r[j] in Candidates(reqs);
    }
  }

  /** The label-order quirk made explicit: along the shopping list, High
      rows come first, then Low rows, then Medium rows, and rows of equal
      priority are in category order. */
  lemma DerivePriorityOrder(reqs: seq<Requirement>)
    ensures forall i, j :: 0 <= i < j < |Derive(reqs)| ==>
              LabelRank(Derive(reqs)[i].priority) <= LabelRank(Derive(reqs)[j].priority)
    ensures forall i, j :: 0 <= i < j < |Derive(reqs)| && Derive(reqs)[i].priority == Derive(reqs)[j].priority ==>
              StringOrder.LessEq(Derive(reqs)[i].category, Derive(reqs)[j].category)
  {
    var r := Derive(reqs);
    forall i, j | 0 <= i < j < |r|
      ensures LabelRank(r[i].priority) <= LabelRank(r[j].priority)
      ensures r[i].priority == r[j].priority ==> StringOrder.LessEq(r[i].category, r[j].category)
    {
      LabelOrder(r[i].priority, r[j].priority);
    }
  }

  /** Sorting the derived list again changes nothing. */
  lemma DeriveResortable(reqs: seq<Requirement>)
    ensures Sort(Derive(reqs)) == Derive(reqs)
  {
    SortKeepsSorted(Derive(reqs));
  }

  // ------------------------------------------------------------ scenarios

  /** 2 kg of apples in stock, 5 kg needed: 3 kg go on the list. */
  lemma ScenarioApples()
    ensures Derive([Requirement("Apples", "Fruits & Vegetables", 2.0, "kg", 5.0, Medium)])
            == [ShoppingEntry("Apples", "Fruits & Vegetables", 3.0, "kg", Medium)]
  {
  }

  /** 4 L of milk in stock, 2 L needed: nothing to buy. */
  lemma ScenarioMilk()
    ensures Derive([Requirement("Milk", "Dairy & Eggs", 4.0, "L", 2.0, Medium)]) == []
  {
  }

  /** In one category, a Low row entered first still comes after a High row. */
  lemma ScenarioHighBeforeLow()
    ensures Derive([Requirement("Rice", "Pantry Staples", 0.0, "kg", 1.0, Low),
                    Requirement("Oats", "Pantry Staples", 0.0, "kg", 1.0, High)])
            == [ShoppingEntry("Oats", "Pantry Staples", 1.0, "kg", High),
                ShoppingEntry("Rice", "Pantry Staples", 1.0, "kg", Low)]
  {
    assert StringOrder.Less("High", "Low");
  }
}

=== FILE: string_order.dfy ===
/**
 Lexicographic order on strings, comparing characters by code point, as
 Python compares `str` values. Dafny's own `<` on sequences is the
 proper-prefix relation, so the order is defined here and shown to be a
 total order.
 */
module StringOrder {

  /** `a` sorts strictly before `b`. */
  predicate Less(a: string, b: string)
  {
    if |b| == 0 then false
    else if |a| == 0 then true
    else a[0] < b[0] || (a[0] == b[0] && Less(a[1..], b[1..]))
  }

  /** `a` sorts before `b` or equals it. */
  predicate LessEq(a: string, b: string)
  {
    a == b || Less(a, b)
  }

  lemma {:induction false} LessIrreflexive(a: string)
    ensures !Less(a, a)
  {
    if |a| > 0 {
      LessIrreflexive(a[1..]);
    }
  }

  lemma {:induction false} LessAsymmetric(a: string, b: string)
    ensures !(Less(a, b) && Less(b, a))
  {
    if |a| > 0 && |b| > 0 && a[0] == b[0] {
      LessAsymmetric(a[1..], b[1..]);
    }
  }

  lemma {:induction false} LessTransitive(a: string, b: string, c: string)
    requires Less(a, b) && Less(b, c)
    ensures Less(a, c)
  {
    if |a| > 0 && a[0] == b[0] && b[0] == c[0] {
      LessTransitive(a[1..], b[1..], c[1..]);
    }
  }

  /** Any two different strings are ordered one way or the other. */
  lemma {:induction false} LessConnected(a: string, b: string)
    requires a != b
    ensures Less(a, b) || Less(b, a)
  {
    if |a| > 0 && |b| > 0 && a[0] == b[0] {
      assert a == [a[0]] + a[1..] && b == [b[0]] + b[1..];
      LessConnected(a[1..], b[1..]);
    }
  }

  /** `LessEq` is a total order: reflexive, antisymmetric, transitive and
      total. */
  lemma LessEqTotalOrder(a: string, b: string, c: string)
    ensures LessEq(a, a)
    ensures LessEq(a, b) && LessEq(b, a) ==> a == b
    ensures LessEq(a, b) && LessEq(b, c) ==> LessEq(a, c)
    ensures LessEq(a, b) || LessEq(b, a)
  {
    if a != b {
      LessAsymmetric(a, b);
      LessConnected(a, b);
    }
    if Less(a, b) && Less(b, c) {
      LessTransitive(a, b, c);
    }
  }
}
